=== FILE: README.md ===
# Celeritas stepping core: a Dafny model

This project models five small, sequential parts of the Celeritas particle
transport code and proves properties about them:

- **Action sequence** (`Actions`, `action_sequence.dfy`). Construction keeps
  the explicit actions of a dense-id action registry and sorts them by the
  pair (order, action id). It also allocates one zeroed timing accumulator
  per kept action. One `execute` call runs the kept actions in that order
  until one raises an error, which ends the step. Elapsed time is accumulated only on host, or on device in
  synchronous mode.
- **Core state** (`Global`, `core_state.dfy`). Construction of a stream's
  state is validated: the stream id must be in range and the slot count must
  be non-zero. Construction initialises the counters. `insert_primaries`
  stages a batch of primaries in a buffer that only grows.
- **Track-slot reordering** (`TrackSort`, `track_sort.dfy`). The rank-to-slot
  mapping `track_slots` is reordered under two policies: `partition_status`
  (alive slots first) and `sort_step_limit_action` (non-decreasing
  step-limit action id). Each policy is specified by the predicate its test
  checks. A simple reference implementation, a stable partition and an
  insertion sort, is proved against that contract.
- **Output registry** (`Output`, `output_manager.dfy`). `OutputManager::insert`
  keeps one map from label to interface per category. It rejects an empty
  label and a label already present in the same category. Which categories
  get a key in the output is modelled too, including the `"*"` interface
  that rewrites its category's object.
- **Optical materials** (`OpticalMaterial`, `optical_material.dfy`). The
  refractive-index grids of optical materials are built from imported data
  and validated.

`wrappers.dfy` holds the `Option`, `Result` and `Outcome` types that model
validation errors. An error that the source raises as an exception
(`CELER_VALIDATE`) is a `Failure`/`Fail` value. A precondition that the
source asserts (`CELER_EXPECT`) is a `requires`.

Three behaviours of the code are easy to misread:

- `MaterialParams::from_import` hands every material to the constructor as
  soon as one material has properties. The constructor then rejects any
  material without a refractive index, so imported data that mixes
  materials with and without properties fails; it does not skip the empty
  materials. The constructor checks the materials in order, so the error is
  that of the first invalid material: "no refractive index" only when every
  material before the empty one is valid (`OpticalMaterial.MixedImportFails`,
  `OpticalMaterial.MixedImportReportsFirstError`).
- In `OutputManager::output` an interface labelled `"*"` does not get a key
  of its own: it rewrites its category's object as a whole. A category
  appears in the output only when that object ends up non-empty, so a
  category whose only interface is `"*"` can be left out
  (`Output.GlobalOnlyCategory`). Writing a later label into that object
  needs it to be null or an object. If the `"*"` interface leaves an array
  or a scalar, the next label's write throws a JSON type error, and so does
  the whole output (`Output.GlobalNonObjectThrows`,
  `Output.NonObjectGlobalOutput`).
- The order among tracks with equal step-limit action ids is not promised.
  Neither is the order within the alive and non-alive groups of a
  partition. The contracts state only the predicate and the permutation.
  The reference partition happens to be stable, which is what makes it
  idempotent.

## Model

| member | source | states |
|---|---|---|
| Actions.FilterExplicit | src/celeritas/global/detail/ActionSequence.cc:36-46 | the kept actions are exactly the registry's explicit ones, as many as the registry has explicit entries, with ids still increasing |
| Actions.Build | src/celeritas/global/detail/ActionSequence.cc:32-60 | the sequence holds exactly the explicit actions, each once, and is no longer than the registry; it is strictly increasing by (order, id); there is one zero timer per action; the options are kept |
| Actions.StrictlyOrderedUnique | src/celeritas/global/detail/ActionSequence.cc:48-54 | two strictly (order, id)-ordered sequences with the same members are equal, so the sort leaves no freedom |
| Actions.BuildIsDeterministic | src/celeritas/global/detail/ActionSequence.cc:48-54 | any strictly ordered arrangement of the registry's explicit actions is the constructed sequence |
| Actions.ThreeActionsOrder | src/celeritas/global/detail/ActionSequence.cc:48-54 | actions 0, 1, 2 with orders 2, 1, 1 run as 1, 2, 0: order first, id breaks ties |
| Actions.ImplicitNeverRuns | src/celeritas/global/detail/ActionSequence.cc:38-45 | an implicit registered action is never in the sequence |
| Actions.CountBound | src/celeritas/global/detail/ActionSequence.cc:36-46 | the number of explicit actions is at most the registry size |
| Actions.RunAllSnoc | src/celeritas/global/detail/ActionSequence.cc:74-83 | running one more action after a prefix: a failure in the prefix stands; otherwise the new action either gives the next state or ends the step with its error at its own position |
| Actions.RunAllAbortedPrefix | src/celeritas/global/detail/ActionSequence.cc:74-77 | once an action has raised, the actions after it do not change how the step ends |
| Actions.RunAllTotal | src/celeritas/global/detail/ActionSequence.cc:71-92 | when no action raises, the step runs to completion |
| Actions.Execute | src/celeritas/global/detail/ActionSequence.cc:68-93 | the actions run in sequence order, and the step ends as the reference semantics says: with the state left by running them all in turn, or with the error of the first action that raised; when timed (host, or sync), timer i grows by exactly action i's elapsed time for every action that completed, and the timers of the raising action and of those after it are kept; untimed, every timer is kept; the actions and options are kept |
| Global.NewCoreState | src/celeritas/global/CoreState.cc:21-47 | fails with the stream-range error iff the stream id is not below the stream count; fails with the no-slots error iff the id is valid and the slot count is zero; otherwise the counters are (slots, 0, 0), no primaries are staged, and every slot is vacant |
| Global.NoneAliveCount | src/celeritas/global/CoreState.cc:32-35 | with no alive slot the alive count is zero, so freshly built state has vacancies equal to slots |
| Global.InsertPrimaries | src/celeritas/global/CoreState.cc:55-68 | the buffer size becomes the larger of the old size and the batch size; its front equals the batch; a buffer large enough keeps its tail; the primary count is set to the batch size; the other counters, the slots and the stream are unchanged |
| Global.InsertPreservesCapacity | src/celeritas/global/CoreState.cc:55-68 | staging primaries keeps the vacancy/alive capacity invariant and the lane sizes |
| Global.SecondBatchReplacesFirst | src/celeritas/global/CoreState.cc:59-64 | after two batches only the second is pending and the count is the second's size, not the sum; the buffer never shrank |
| Global.InsertPrimariesIdempotent | src/celeritas/global/CoreState.cc:59-67 | staging the same batch twice gives the state of staging it once |
| Global.ReorderTracks | test/celeritas/track/TrackSort.test.cc:137-145 | reordering a stream's slots only permutes the rank mapping: counters, staged primaries, per-slot data and the capacity invariant are kept, and the policy's predicate holds |
| TrackSort.LeadingAlive | test/celeritas/track/TrackSort.test.cc:126-135 | the length of the alive prefix of the ranks: every rank before it is alive, and the rank at it is not |
| TrackSort.Select | test/celeritas/track/TrackSort.test.cc:126-135 | the selection keeps only ranks of the requested aliveness |
| TrackSort.SelectSplit | test/celeritas/track/TrackSort.test.cc:126-135 | the alive and non-alive selections together hold exactly the input ranks |
| TrackSort.SelectAliveCount | test/celeritas/track/TrackSort.test.cc:126-135 | the alive selection has one rank per alive rank of the input |
| TrackSort.Partition | test/celeritas/track/TrackSort.test.cc:126-143 | the result is a permutation of the ranks; status and step limits are untouched; the mapping is partitioned; a rank is alive iff it is below the number of alive ranks |
| TrackSort.PartitionedIffSplit | test/celeritas/track/TrackSort.test.cc:129-134 | the `std::is_partitioned` condition (no alive rank after a non-alive one) holds iff some split point has alive ranks before it and none after |
| TrackSort.SelectNoneAlive | test/celeritas/track/TrackSort.test.cc:126-135 | with no alive rank, the alive selection is empty and the other selection is the whole mapping |
| TrackSort.SelectOfPartitioned | test/celeritas/track/TrackSort.test.cc:126-135 | on a partitioned mapping, alive selection followed by non-alive selection is the mapping itself |
| TrackSort.PartitionIdempotent | test/celeritas/track/TrackSort.test.cc:139-143 | for the reference implementation: partitioning an already partitioned mapping changes nothing |
| TrackSort.PartitionTwice | test/celeritas/track/TrackSort.test.cc:139-143 | for the reference implementation: partitioning twice in a row equals partitioning once |
| TrackSort.SortedPair | test/celeritas/track/TrackSort.test.cc:207-220 | in a mapping sorted by consecutive pairs, every earlier rank's action id is at most every later one's |
| TrackSort.SortedIffAllPairs | test/celeritas/track/TrackSort.test.cc:207-220 | the consecutive-pair check is equivalent to the all-pairs ordering |
| TrackSort.InsertByAction | test/celeritas/track/TrackSort.test.cc:207-220 | inserting a rank into a sorted mapping adds exactly that rank and keeps the mapping sorted |
| TrackSort.SortSlots | test/celeritas/track/TrackSort.test.cc:207-227 | the sorted mapping is a permutation of the input and non-decreasing in step-limit action id |
| TrackSort.SortByAction | test/celeritas/track/TrackSort.test.cc:207-227 | the result is a permutation of the ranks, sorted by action id; status and step limits are untouched |
| TrackSort.SortSlotsIdempotent | test/celeritas/track/TrackSort.test.cc:223-227 | for the reference implementation: sorting an already sorted mapping changes nothing |
| TrackSort.SortTwice | test/celeritas/track/TrackSort.test.cc:223-227 | for the reference implementation: sorting twice in a row equals sorting once |
| TrackSort.ActionsAlongMultiset | test/celeritas/track/TrackSort.test.cc:207-220 | permuting the ranks permutes the action ids read along them |
| TrackSort.NonDecreasingUnique | test/celeritas/track/TrackSort.test.cc:207-220 | two non-decreasing id sequences with the same ids are equal |
| TrackSort.SortedActionsDetermined | test/celeritas/track/TrackSort.test.cc:207-220 | two sorted orderings of the same ranks read the same action ids, so sort results differ only among equal ids |
| TrackSort.SortReadsArrangement | test/celeritas/track/TrackSort.test.cc:207-227 | after sorting, the ids read along the ranks are the unique non-decreasing arrangement of the input's ids |
| TrackSort.EightSlotsSortByAction | test/celeritas/track/TrackSort.test.cc:223-227 | eight slots with action ids 3,1,2,1,3,2,1,2 sort to read 1,1,1,2,2,2,3,3 |
| TrackSort.EightSlotsPartition | test/celeritas/track/TrackSort.test.cc:139-143 | eight slots, five alive and three killed, partition into five alive ranks followed by three non-alive ones |
| TrackSort.SortTracks | test/celeritas/track/TrackSort.test.cc:139-145 | for any well-formed state, e.g. after any number of steps, the result is a permutation of the ranks that satisfies the chosen policy's predicate, and the per-slot data is untouched |
| TrackSort.SortTracksIdempotent | test/celeritas/track/TrackSort.test.cc:223-229 | for the reference implementations: reordering twice without an intervening step equals reordering once |
| Output.Insert | src/sim/OutputManager.cc:27-41 | fails with the empty-label error iff the label is empty; fails with the duplicate error naming the label and category iff the label is already in that category; on failure the registry is unchanged, so the earlier entry stays; on success exactly one entry is added to that category and every other category is unchanged |
| Output.InsertKeepsConsistent | src/sim/OutputManager.cc:35-37 | every stored interface stays under its own non-empty label and its own category |
| Output.SameLabelInTwoCategories | src/sim/OutputManager.cc:35-37 | one label can be registered once in each of two categories, and both entries are kept |
| Output.SecondInsertRejected | src/sim/OutputManager.cc:36-40 | a second insert of the same (category, label) fails and keeps the first interface |
| Output.LabelAfterGlobal | src/sim/OutputManager.cc:55-60 | a label starting with a character after `*` (any letter or digit) is iterated after `"*"` |
| Output.IterationCount | src/sim/OutputManager.cc:55 | iterating a category's map visits each registered label exactly once |
| Output.CategoryObject | src/sim/OutputManager.cc:54-75 | with no `"*"` entry, starting from null or an object, writing never throws and leaves the start value when there are no entries and a non-empty object otherwise; a write that succeeds and ends on an ordinary label leaves a non-empty object; a failure names an ordinary label of the category |
| Output.CategoryObjectSplit | src/sim/OutputManager.cc:55-75 | writing the entries equals writing a prefix and then the rest from the value the prefix left, and a failure in the prefix is the failure of the whole |
| Output.ObjectKeptThroughout | src/sim/OutputManager.cc:62-73 | when the `"*"` interface always hands back null or an object, writing a category never throws and leaves null or an object |
| Output.EmptyCategoryOmitted | src/sim/OutputManager.cc:54-80 | a category with no interfaces stays null, so it contributes no key and does not throw |
| Output.PlainCategoryWritten | src/sim/OutputManager.cc:60-80 | without a `"*"` interface, a category never throws and ends null when it has no interface and a non-empty object otherwise |
| Output.GlobalOnlyCategory | src/sim/OutputManager.cc:60-80 | a category whose only interface is labelled `"*"` holds what that interface makes of null, and gets a key exactly when that value is not empty |
| Output.LaterLabelWritten | src/sim/OutputManager.cc:55-80 | a category holding a label that sorts after `"*"` either throws or ends as a non-empty object, since that entry is written after the `"*"` one |
| Output.GlobalThenLabelThrows | src/sim/OutputManager.cc:62-73 | a `"*"` entry that leaves a value unable to take keys, followed by an ordinary entry, throws, naming that entry's label |
| Output.GlobalNonObjectThrows | src/sim/OutputManager.cc:62-73 | when the `"*"` interface never leaves null or an object and a label sorts after `"*"`, writing the category throws |
| Output.GlobalArrayThenLabel | src/sim/OutputManager.cc:62-73 | a `"*"` interface that leaves an empty array, then the label `"a"`: the write of `"a"` throws, naming `"a"` |
| Output.CategoryFacts | src/sim/OutputManager.cc:54-80 | per category: no interfaces gives no key; without `"*"`, a key exactly when there is an interface; a `"*"` interface that keeps an object means no throw; a label after `"*"` means a throw or a key |
| Output.OutputCategories | src/sim/OutputManager.cc:52-80 | when it does not throw, the output's categories are real categories; a category with no interfaces gets no key; a category without a `"*"` interface gets a key exactly when it has an interface; a category with a label that sorts after `"*"` gets a key; it never throws when the `"*"` interface always keeps an object |
| Output.PlainRegistryOutput | src/sim/OutputManager.cc:52-80 | with no `"*"` interface anywhere, the output does not throw and holds exactly the categories that have an interface |
| Output.NonObjectGlobalOutput | src/sim/OutputManager.cc:62-80 | a category with a `"*"` interface that never leaves null or an object, and with a label sorting after `"*"`, makes the whole output throw |
| Output.InsertOutputCategories | src/sim/OutputManager.cc:27-80 | a failed insert changes nothing; a successful insert of a label that sorts after `"*"` puts its category in the output unless the output throws; when the `"*"` interface keeps an object, the output does not throw, and the insert adds exactly that category and leaves the others as they were |
| OpticalMaterial.IncreasingPair | src/celeritas/optical/MaterialParams.cc:77-82 | in a strictly increasing grid, every earlier value is below every later one |
| OpticalMaterial.IncreasingIffAllPairs | src/celeritas/optical/MaterialParams.cc:77-82 | the neighbour check is equivalent to the all-pairs order |
| OpticalMaterial.CheckMaterial | src/celeritas/optical/MaterialParams.cc:72-82 | a material passes iff it is valid; the error is "missing refractive index" (with its index) iff it has no data; it is "energy grid" iff it has data but x does not increase; it is "index values" iff x increases but y does not |
| OpticalMaterial.BuildFrom | src/celeritas/optical/MaterialParams.cc:65-91 | the validation loop succeeds iff every remaining material is valid, and then grid i comes from material i; on failure the error is that of the first invalid material |
| OpticalMaterial.Construct | src/celeritas/optical/MaterialParams.cc:58-96 | succeeds iff every material is valid; then there is exactly one grid per material, in order, each increasing in x and y; otherwise the error is the first invalid material's |
| OpticalMaterial.FromImport | src/celeritas/optical/MaterialParams.cc:32-52 | no parameters iff no material has properties; succeeds iff all materials are valid or none has properties; when built, one grid per material, in order |
| OpticalMaterial.MixedImportFails | src/celeritas/optical/MaterialParams.cc:37-82 | data where one material has properties and another has none is rejected; the error names the material without properties when every material before it is valid |
| OpticalMaterial.MixedImportReportsFirstError | src/celeritas/optical/MaterialParams.cc:65-79 | with a decreasing energy grid first and a material without properties second, the error is the first material's energy grid error |
| OpticalMaterial.BelowUnityAccepted | src/celeritas/optical/MaterialParams.cc:83-88 | a refractive index starting below one is accepted and stored unchanged |

## Left out

- Device memory and synchronisation: `DeviceSynchronize`, the device copy of the state reference and the `Copier` transfer mechanics. Host and device hold the same logical data, so staging primaries is modelled as a plain sequence copy.
- Wall-clock timing (`Stopwatch`): elapsed times are a parameter of `Execute`, one value per action.
- Sizes, counters and ids (slot counts, primary counts, stream ids, action ids) are unbounded natural numbers. The source uses fixed-width `size_type` and `OpaqueId` values, so narrowing and overflow are not modelled. An example is storing the `std::size_t` batch size into the `size_type` counter in `CoreState::insert_primaries`, which `Global.InsertPrimaries` states as an exact equality.
- Actions.Execute: elapsed times and accumulators are natural numbers, not the source's floating-point seconds, so rounding in the accumulation is not modelled.
- The bodies of individual actions: an action's effect is a parameter function from action and state to the next state, or to the error the action raises.
- JSON rendering in `OutputManager::output`: only which categories reach the output, and whether it throws, is modelled. A JSON value is reduced to its shape: null, empty or filled object, empty or filled array, or scalar. An ordinary interface's write leaves a filled object, or throws when the value is not null or an object. What the `"*"` interface leaves is a parameter: a shape, given the shape it was handed.
- Output.OutputCategories: says nothing about a category that holds a `"*"` interface and no label sorting after it, because whether its value ends up empty depends on what that interface writes, which is opaque. When the output throws, it does not say which category's error is raised first, because the order of the category enumeration is not part of this model.
- Output.InsertOutputCategories: says nothing about inserting the `"*"` label or a label that sorts before it (one starting with a space or punctuation below `*`), for the same reason. With a `"*"` interface that can leave an array or a scalar, it promises only that the inserted category appears when the output does not throw, not that the other categories keep their presence.
- The iteration order of a category's map is a parameter, constrained to list every entry once by increasing label; it is not computed. Labels are compared character by character by code point, which matches `std::string` for ASCII labels.
- Logging: the status message after state construction and the below-unity refractive index warning.
- `GenericGridBuilder` internals: a stored grid is the validated (x, y) pair itself.
- The actual algorithm of `detail::sort_tracks` is not part of this model. It is specified by its contract, and a reference implementation is proved against it.
- `ActionRegistry` is not part of this model: a registry is a sequence whose entry i has id i.
- `is_monotonic_increasing` is not part of this model; it is taken as strict increase between neighbours.
- The boolean conversions of an imported physics vector and of an imported optical property set are not part of this model. "Has data" is taken as a non-empty grid with one value per grid point. A property set is taken as present exactly when its refractive-index vector has data (`OpticalMaterial.HasProperties`). The claim that mixed import data fails, and `OpticalMaterial.MixedImportFails`, rest on this reading.
- The imported optical data is a map keyed by material id. It is modelled as a sequence in key order, which is the map's iteration order.
- A null interface passed to `OutputManager::insert`: the model's `Iface` value is always present.
- The other files around these cores (boundary action, ROOT event reader, gamma conversion process, Geant4 action initialisation, surface functors, mock test fixtures): they are declarations, I/O or floating-point geometry outside the five cores.

=== FILE: action_sequence.dfy ===
/**
 * The ordered sequence of explicit actions run once per step.
 *
 * The registry holds every action under a dense id; the sequence keeps the
 * explicit ones, sorted by the pair (order, id), and one timing accumulator
 * per kept action. The work an action does is opaque: it is a parameter
 * `run` that maps an action and a state to the next state, or to the error
 * the action raised.
 */
module Actions {
  import opened Wrappers

  /** A registered action: its id, its pipeline phase and whether it runs every step. */
  datatype Action = Action(id: nat, order: nat, explicit: bool)

  /** Memory space of the state an action sequence is executed on. */
  datatype MemSpace = Host | Device

  datatype Options = Options(sync: bool)

  /** Explicit actions in execution order, with their accumulated elapsed times. */
  datatype ActionSequence = ActionSequence(actions: seq<Action>, accumTime: seq<nat>, options: Options)

  /** Registry invariant: the action at position i has id i. */
  predicate DenseIds(reg: seq<Action>) {
    forall i :: 0 <= i < |reg| ==> reg[i].id == i
  }

  /** Lexicographic comparison of the sort key (order, id). */
  predicate KeyLess(a: Action, b: Action) {
    a.order < b.order || (a.order == b.order && a.id < b.id)
  }

  /** Strictly increasing by key: each action precedes every later one. */
  predicate StrictlyOrdered(s: seq<Action>) {
    forall i, j :: 0 <= i < j < |s| ==> KeyLess(s[i], s[j])
  }

  /** Ids strictly increase along the sequence. */
  predicate IdsIncreasing(s: seq<Action>) {
    forall i, j :: 0 <= i < j < |s| ==> s[i].id < s[j].id
  }

  /** Number of explicit actions. */
  function CountExplicit(reg: seq<Action>): nat {
    if |reg| == 0 then 0 else (if reg[0].explicit then 1 else 0) + CountExplicit(reg[1..])
  }

  /** The explicit actions of `reg`, in registry order. */
  function FilterExplicit(reg: seq<Action>): (r: seq<Action>)
    ensures forall a :: a in r <==> a in reg && a.explicit
    ensures |r| == CountExplicit(reg)
    ensures IdsIncreasing(reg) ==> IdsIncreasing(r)
  {
    if |reg| == 0 then []
    else
      var rest := FilterExplicit(reg[1..]);
      assert forall a :: a in reg <==> a == reg[0] || a in reg[1..];
      if reg[0].explicit then [reg[0]] + rest else rest
  }

  lemma DenseIdsIncrease(reg: seq<Action>)
    requires DenseIds(reg)
    ensures IdsIncreasing(reg)
  {
  }

  /** Inserts `x` into a strictly ordered sequence at its key position. */
  function InsertByKey(x: Action, sorted: seq<Action>): (r: seq<Action>)
    requires StrictlyOrdered(sorted)
    requires forall k :: 0 <= k < |sorted| ==> sorted[k].id != x.id
    ensures forall a :: a in r <==> a == x || a in sorted
    ensures multiset(r) == multiset(sorted) + multiset{x}
    ensures StrictlyOrdered(r)
  {
    if |sorted| == 0 then [x]
    else if KeyLess(x, sorted[0]) then [x] + sorted
    else
      assert sorted == [sorted[0]] + sorted[1..];
      assert KeyLess(sorted[0], x);
      var rest := InsertByKey(x, sorted[1..]);
      assert forall k :: 0 <= k < |rest| ==> KeyLess(sorted[0], rest[k]) by {
        forall k | 0 <= k < |rest| ensures KeyLess(sorted[0], rest[k]) {
          assert rest[k] in rest;
        }
      }
      [sorted[0]] + rest
  }

  /** Insertion sort by key of actions with pairwise distinct ids. */
  function SortByKey(s: seq<Action>): (r: seq<Action>)
    requires IdsIncreasing(s)
    ensures forall a :: a in r <==> a in s
    ensures multiset(r) == multiset(s)
    ensures StrictlyOrdered(r)
  {
    if |s| == 0 then []
    else
      assert s == [s[0]] + s[1..];
      var rest := SortByKey(s[1..]);
      assert forall k :: 0 <= k < |rest| ==> rest[k] in s[1..];
      InsertByKey(s[0], rest)
  }

  /**
   * Construction from a registry: keep exactly the explicit actions, each
   * once, sorted strictly by (order, id), with one zero accumulator each.
   */
  function Build(reg: seq<Action>, options: Options): (r: ActionSequence)
    requires DenseIds(reg)
    ensures forall a :: a in r.actions <==> a in reg && a.explicit
    ensures forall i, j :: 0 <= i < j < |r.actions| ==> r.actions[i] != r.actions[j]
    ensures |r.actions| == CountExplicit(reg) <= |reg|
    ensures StrictlyOrdered(r.actions)
    ensures |r.accumTime| == |r.actions|
    ensures forall i :: 0 <= i < |r.accumTime| ==> r.accumTime[i] == 0
    ensures r.options == options
  {
    DenseIdsIncrease(reg);
    var kept := FilterExplicit(reg);
    var sorted := SortByKey(kept);
    assert |sorted| == |multiset(sorted)| == |multiset(kept)| == |kept|;
    assert |kept| <= |reg| by { CountBound(reg); }
    StrictlyOrderedDistinct(sorted);
    ActionSequence(sorted, seq(|sorted|, _ => 0), options)
  }

  lemma {:induction false} CountBound(reg: seq<Action>)
    ensures CountExplicit(reg) <= |reg|
  {
    if |reg| > 0 {
      CountBound(reg[1..]);
    }
  }

  /** A strictly ordered sequence holds no action twice. */
  lemma StrictlyOrderedDistinct(s: seq<Action>)
    requires StrictlyOrdered(s)
    ensures forall i, j :: 0 <= i < j < |s| ==> s[i] != s[j]
  {
  }

  /** The head of a strictly ordered sequence precedes every other member. */
  lemma HeadIsLeast(a: seq<Action>)
    requires StrictlyOrdered(a) && |a| > 0
    ensures forall x :: x in a && x != a[0] ==> KeyLess(a[0], x)
  {
  }

  /**
   * Two strictly ordered sequences with the same members are equal: the
   * order the key imposes leaves no freedom.
   */
  lemma {:induction false} StrictlyOrderedUnique(a: seq<Action>, b: seq<Action>)
    requires StrictlyOrdered(a) && StrictlyOrdered(b)
    requires forall x :: x in a <==> x in b
    ensures a == b
  {
    assert |a| > 0 ==> a[0] in b;
    assert |b| > 0 ==> b[0] in a;
    if |a| > 0 && |b| > 0 {
      HeadIsLeast(a);
      HeadIsLeast(b);
      assert a[0] == b[0];
      assert a == [a[0]] + a[1..];
      assert b == [b[0]] + b[1..];
      forall x
        ensures x in a[1..] <==> x in b[1..]
      {
        if x in a[1..] {
          var i :| 0 <= i < |a| - 1 && a[1..][i] == x;
          assert KeyLess(a[0], a[i + 1]);
          assert x in b && x != b[0];
        }
        if x in b[1..] {
          var j :| 0 <= j < |b| - 1 && b[1..][j] == x;
          assert KeyLess(b[0], b[j + 1]);
          assert x in a && x != a[0];
        }
      }
      StrictlyOrderedUnique(a[1..], b[1..]);
    }
  }

  /**
   * Determinism: any strict (order, id) arrangement of the registry's
   * explicit actions is the one construction produces.
   */
  lemma BuildIsDeterministic(reg: seq<Action>, options: Options, s: seq<Action>)
    requires DenseIds(reg)
    requires StrictlyOrdered(s)
    requires forall a :: a in s <==> a in reg && a.explicit
    ensures Build(reg, options).actions == s
  {
    StrictlyOrderedUnique(Build(reg, options).actions, s);
  }

  /**
   * Three explicit actions registered with orders 2, 1, 1 run as ids 1, 2, 0:
   * order first, id second.
   */
  lemma ThreeActionsOrder()
    ensures var reg := [Action(0, 2, true), Action(1, 1, true), Action(2, 1, true)];
            Build(reg, Options(false)).actions == [reg[1], reg[2], reg[0]]
  {
    var reg := [Action(0, 2, true), Action(1, 1, true), Action(2, 1, true)];
    var expected := [reg[1], reg[2], reg[0]];
    assert forall a :: a in expected <==> a in reg && a.explicit;
    BuildIsDeterministic(reg, Options(false), expected);
  }

  /** Implicit actions never reach the sequence. */
  lemma ImplicitNeverRuns(reg: seq<Action>, options: Options, a: Action)
    requires DenseIds(reg)
    requires a in reg && !a.explicit
    ensures a !in Build(reg, options).actions
  {
  }

  //--------------------------------------------------------------------------
  // Execution
  //--------------------------------------------------------------------------

  /** Per-action timing is taken on host, or on device in synchronous mode. */
  predicate Timed(mem: MemSpace, options: Options) {
    mem == Host || options.sync
  }

  /**
   * How a step ends: every action ran and left `state`, or the action at
   * position `at` raised `error`, which propagates out of the step.
   */
  datatype StepEnd<S, E> = Done(state: S) | Aborted(error: E, at: nat)

  /**
   * Reference semantics of one step: run the actions in turn on the state;
   * the first action that fails ends the step.
   */
  function RunAll<S, E>(run: (Action, S) -> Result<S, E>, actions: seq<Action>, state: S): (r: StepEnd<S, E>)
    ensures r.Aborted? ==> r.at < |actions|
  {
    if |actions| == 0 then Done(state)
    else match run(actions[0], state)
      case Failure(e) => Aborted(e, 0)
      case Success(next) =>
        match RunAll(run, actions[1..], next)
        case Done(last) => Done(last)
        case Aborted(e, k) => Aborted(e, k + 1)
  }

  /** Number of actions that completed: all of them, or those before the one that failed. */
  function Completed<S, E>(end: StepEnd<S, E>, n: nat): nat {
    if end.Done? then n else end.at
  }

  /** Running one more action after a prefix: the prefix's failure stands, else the new action decides. */
  lemma {:induction false} RunAllSnoc<S, E>(run: (Action, S) -> Result<S, E>, actions: seq<Action>, a: Action, state: S)
    ensures RunAll(run, actions + [a], state) ==
            match RunAll(run, actions, state)
            case Aborted(e, k) => Aborted(e, k)
            case Done(last) =>
              match run(a, last)
              case Success(next) => Done(next)
              case Failure(e) => Aborted(e, |actions|)
  {
    if |actions| > 0 {
      assert (actions + [a])[1..] == actions[1..] + [a];
      if run(actions[0], state).Success? {
        RunAllSnoc(run, actions[1..], a, run(actions[0], state).value);
      }
    }
  }

  /** A failure within a prefix ends the whole step at the same action. */
  lemma {:induction false} RunAllAbortedPrefix<S, E>(run: (Action, S) -> Result<S, E>, prefix: seq<Action>, rest: seq<Action>, state: S)
    requires RunAll(run, prefix, state).Aborted?
    ensures RunAll(run, prefix + rest, state) == RunAll(run, prefix, state)
  {
    if |prefix| > 0 {
      assert (prefix + rest)[1..] == prefix[1..] + rest;
      if run(prefix[0], state).Success? {
        RunAllAbortedPrefix(run, prefix[1..], rest, run(prefix[0], state).value);
      }
    }
  }

  /** With actions that never fail, the step runs to completion. */
  lemma {:induction false} RunAllTotal<S, E>(run: (Action, S) -> Result<S, E>, actions: seq<Action>, state: S)
    requires forall a, st :: run(a, st).Success?
    ensures RunAll(run, actions, state).Done?
  {
    if |actions| > 0 {
      RunAllTotal(run, actions[1..], run(actions[0], state).value);
    }
  }

  /**
   * One step. The actions run in sequence order and the step ends as the
   * reference semantics says: with the final state, or with the error of the
   * first action that failed. When timed, accumulator i grows by the elapsed
   * time of action i (supplied by `elapsed`) for every action that
   * completed; the accumulators of the failed action and of those after it
   * are kept. Untimed, every accumulator is kept.
   */
  method Execute<S, E>(s: ActionSequence, mem: MemSpace, run: (Action, S) -> Result<S, E>, state: S, elapsed: seq<nat>)
    returns (r: ActionSequence, end: StepEnd<S, E>)
    requires |s.accumTime| == |s.actions|
    requires |elapsed| == |s.actions|
    ensures end == RunAll(run, s.actions, state)
    ensures r.actions == s.actions && r.options == s.options
    ensures |r.accumTime| == |s.accumTime|
    ensures Timed(mem, s.options) ==>
              forall i :: 0 <= i < |r.accumTime| ==>
                r.accumTime[i] == s.accumTime[i] + (if i < Completed(end, |s.actions|) then elapsed[i] else 0)
    ensures !Timed(mem, s.options) ==> r.accumTime == s.accumTime
  {
    var accum := s.accumTime;
    var timed := Timed(mem, s.options);
    var current := state;
    var i := 0;
    while i < |s.actions|
      invariant 0 <= i <= |s.actions|
      invariant RunAll(run, s.actions[..i], state) == Done(current)
      invariant |accum| == |s.accumTime|
      invariant forall k :: 0 <= k < |accum| ==>
                  accum[k] == s.accumTime[k] + (if timed && k < i then elapsed[k] else 0)
    {
      RunAllSnoc(run, s.actions[..i], s.actions[i], state);
      assert s.actions[..i + 1] == s.actions[..i] + [s.actions[i]];
      match run(s.actions[i], current)
      case Failure(e) =>
        RunAllAbortedPrefix(run, s.actions[..i + 1], s.actions[i + 1..], state);
        assert s.actions[..i + 1] + s.actions[i + 1..] == s.actions;
        r := s.(accumTime := accum);
        end := Aborted(e, i);
        return;
      case Success(next) =>
        current := next;
        if timed {
          accum := accum[i := accum[i] + elapsed[i]];
        }
        i := i + 1;
    }
    assert s.actions[..|s.actions|] == s.actions;
    r := s.(accumTime := accum);
    end := Done(current);
  }
}

=== FILE: core_state.dfy ===
/**
 * Per-stream core state: validated construction, occupancy counters and the
 * staging buffer of primaries waiting to become track initializers.
 *
 * Host and device memory spaces hold the same logical data; the model keeps
 * one copy, so the host-to-device transfer of primaries is a plain sequence
 * copy.
 */
module Global {
  import opened Wrappers
  import opened TrackSort

  /** An input particle supplied by the event source. */
  datatype Primary = Primary(particleId: nat, energy: real, eventId: nat, trackId: nat, time: real)

  /** Occupancy counters of a stream. */
  datatype Counters = Counters(numVacancies: nat, numPrimaries: nat, numInitializers: nat)

  /** The state of one stream. */
  datatype CoreState = CoreState(
    streamId: nat,
    numTrackSlots: nat,
    counters: Counters,
    lanes: Lanes,
    primaries: seq<Primary>)

  /** Validation failures of construction. */
  datatype CoreStateError = StreamOutOfRange(streamId: nat, maxStreams: nat) | NoTrackSlots

  /** Number of slots whose status is alive. */
  function CountAliveSlots(status: seq<TrackStatus>): nat {
    if |status| == 0 then 0
    else (if status[0] == Alive then 1 else 0) + CountAliveSlots(status[1..])
  }

  /** Every slot is either vacant or holds an alive track. */
  predicate CapacityInvariant(s: CoreState) {
    s.counters.numVacancies + CountAliveSlots(s.lanes.status) == s.numTrackSlots
  }

  /** The lane arrays have one entry per slot. */
  predicate LanesSized(s: CoreState) {
    && WellFormed(s.lanes)
    && |s.lanes.status| == s.numTrackSlots
    && |s.lanes.trackSlots| == s.numTrackSlots
  }

  /** The primaries of the most recent batch: the front of the staging buffer. */
  function PendingPrimaries(s: CoreState): seq<Primary>
    requires s.counters.numPrimaries <= |s.primaries|
  {
    s.primaries[..s.counters.numPrimaries]
  }

  lemma {:induction false} NoneAliveCount(status: seq<TrackStatus>)
    requires forall i :: 0 <= i < |status| ==> status[i] != Alive
    ensures CountAliveSlots(status) == 0
  {
    if |status| > 0 {
      NoneAliveCount(status[1..]);
    }
  }

  /**
   * Construction: the stream id must be below the number of streams and the
   * slot count must be positive. The slots start empty (identity rank
   * mapping, every status inactive) and every slot is vacant.
   */
  function NewCoreState(maxStreams: nat, streamId: nat, numTrackSlots: nat): (r: Result<CoreState, CoreStateError>)
    ensures r == Failure(StreamOutOfRange(streamId, maxStreams)) <==> streamId >= maxStreams
    ensures r == Failure(NoTrackSlots) <==> streamId < maxStreams && numTrackSlots == 0
    ensures r.Success? <==> streamId < maxStreams && numTrackSlots > 0
    ensures r.Success? ==>
              && r.value.streamId == streamId
              && r.value.numTrackSlots == numTrackSlots
              && r.value.counters == Counters(numVacancies := numTrackSlots, numPrimaries := 0, numInitializers := 0)
              && r.value.primaries == []
              && LanesSized(r.value)
              && CapacityInvariant(r.value)
  {
    if streamId >= maxStreams then Failure(StreamOutOfRange(streamId, maxStreams))
    else if numTrackSlots == 0 then Failure(NoTrackSlots)
    else
      var status := seq(numTrackSlots, _ => Inactive);
      NoneAliveCount(status);
      var lanes := Lanes(
        trackSlots := seq(numTrackSlots, i => i),
        status := status,
        stepLimit := seq(numTrackSlots, _ => StepLimit(0, 0.0)));
      Success(CoreState(
        streamId := streamId,
        numTrackSlots := numTrackSlots,
        counters := Counters(numVacancies := numTrackSlots, numPrimaries := 0, numInitializers := 0),
        lanes := lanes,
        primaries := []))
  }

  /**
   * Stages a batch of primaries. The buffer is replaced by a fresh one only
   * when it is too small, so it never shrinks; the batch overwrites its
   * front; the primary count is set to the batch size, not added to it.
   */
  function InsertPrimaries(s: CoreState, batch: seq<Primary>): (r: CoreState)
    ensures |r.primaries| == if |s.primaries| < |batch| then |batch| else |s.primaries|
    ensures r.primaries[..|batch|] == batch
    ensures |batch| <= |s.primaries| ==> r.primaries[|batch|..] == s.primaries[|batch|..]
    ensures r.counters.numPrimaries == |batch|
    ensures PendingPrimaries(r) == batch
    ensures r.counters.numVacancies == s.counters.numVacancies
    ensures r.counters.numInitializers == s.counters.numInitializers
    ensures r.streamId == s.streamId && r.numTrackSlots == s.numTrackSlots && r.lanes == s.lanes
  {
    var buffer := if |s.primaries| < |batch| then batch else batch + s.primaries[|batch|..];
    s.(primaries := buffer, counters := s.counters.(numPrimaries := |batch|))
  }

  /** Staging does not touch the slots, so the capacity invariant survives it. */
  lemma InsertPreservesCapacity(s: CoreState, batch: seq<Primary>)
    requires CapacityInvariant(s) && LanesSized(s)
    ensures CapacityInvariant(InsertPrimaries(s, batch)) && LanesSized(InsertPrimaries(s, batch))
  {
  }

  /**
   * Two successive batches: only the second is pending, and the buffer is as
   * large as the larger of the earlier buffer and the two batches.
   */
  lemma SecondBatchReplacesFirst(s: CoreState, first: seq<Primary>, second: seq<Primary>)
    ensures var r := InsertPrimaries(InsertPrimaries(s, first), second);
            && r.counters.numPrimaries == |second|
            && PendingPrimaries(r) == second
            && |r.primaries| >= |s.primaries| && |r.primaries| >= |first| && |r.primaries| >= |second|
            && r.lanes == s.lanes
  {
  }

  /** Staging the same batch twice leaves the state of staging it once. */
  lemma InsertPrimariesIdempotent(s: CoreState, batch: seq<Primary>)
    ensures InsertPrimaries(InsertPrimaries(s, batch), batch) == InsertPrimaries(s, batch)
  {
  }

  /**
   * Reorders the stream's track slots between steps: only the rank mapping
   * changes, so the counters, the staging buffer and the capacity invariant
   * are kept.
   */
  function ReorderTracks(s: CoreState, order: TrackOrder): (r: CoreState)
    requires LanesSized(s)
    ensures LanesSized(r)
    ensures r.counters == s.counters && r.primaries == s.primaries
    ensures r.lanes.status == s.lanes.status && r.lanes.stepLimit == s.lanes.stepLimit
    ensures multiset(r.lanes.trackSlots) == multiset(s.lanes.trackSlots)
    ensures CapacityInvariant(s) ==> CapacityInvariant(r)
    ensures order == PartitionStatus ==> IsPartitioned(r.lanes.trackSlots, r.lanes.status)
    ensures order == SortStepLimitAction ==> IsSortedByAction(r.lanes.trackSlots, r.lanes.stepLimit)
  {
    var lanes := SortTracks(s.lanes, order);
    assert |lanes.trackSlots| == |multiset(lanes.trackSlots)| == |multiset(s.lanes.trackSlots)|;
    s.(lanes := lanes)
  }
}

=== FILE: optical_material.dfy ===
/**
 * Optical material parameters: the refractive index of each optical
 * material, tabulated as a function of photon energy, validated and stored
 * as one grid per material.
 *
 * Grid values are `real`; only order comparisons are made on them.
 */
module OpticalMaterial {
  import opened Wrappers

  /** Imported tabulated data: values `y` at grid points `x`. */
  datatype PhysicsVector = PhysicsVector(x: seq<real>, y: seq<real>)

  /** Imported optical properties of one material. */
  datatype OpticalProperty = OpticalProperty(refractiveIndex: PhysicsVector)

  /** One optical material of the imported data. */
  datatype ImportOpticalMaterial = ImportOpticalMaterial(properties: OpticalProperty)

  /** Construction input: the properties of each optical material, by material index. */
  datatype Input = Input(properties: seq<OpticalProperty>)

  /** A stored refractive-index grid. */
  datatype Grid = Grid(x: seq<real>, y: seq<real>)

  /** The built parameters: one refractive-index grid per optical material. */
  datatype MaterialParams = MaterialParams(refractiveIndex: seq<Grid>)

  datatype MaterialError =
    | MissingRefractiveIndex(material: nat)
    | EnergyGridNotIncreasing
    | IndexNotIncreasing

  /** A vector holds data: a non-empty grid and one value per grid point. */
  predicate HasData(v: PhysicsVector) {
    |v.x| > 0 && |v.x| == |v.y|
  }

  /** A property set is present when its refractive index holds data. */
  predicate HasProperties(p: OpticalProperty) {
    HasData(p.refractiveIndex)
  }

  /** Each value is strictly greater than the one before it. */
  predicate IsMonotonicIncreasing(v: seq<real>) {
    forall i :: 0 <= i && i + 1 < |v| ==> v[i] < v[i + 1]
  }

  lemma {:induction false} IncreasingPair(v: seq<real>, i: nat, j: nat)
    requires IsMonotonicIncreasing(v)
    requires i < j < |v|
    ensures v[i] < v[j]
    decreases j - i
  {
    if i + 1 < j {
      IncreasingPair(v, i, j - 1);
      assert v[j - 1] < v[j];
    }
  }

  /** Comparing neighbours is the same as comparing every pair. */
  lemma IncreasingIffAllPairs(v: seq<real>)
    ensures IsMonotonicIncreasing(v) <==> forall i, j :: 0 <= i < j < |v| ==> v[i] < v[j]
  {
    if IsMonotonicIncreasing(v) {
      forall i, j | 0 <= i < j < |v|
        ensures v[i] < v[j]
      {
        IncreasingPair(v, i, j);
      }
    }
  }

  /** What the constructor demands of each material. */
  predicate IsValidMaterial(p: OpticalProperty) {
    && HasData(p.refractiveIndex)
    && IsMonotonicIncreasing(p.refractiveIndex.x)
    && IsMonotonicIncreasing(p.refractiveIndex.y)
  }

  /** Validation of material `index`, with the error the constructor raises first. */
  function CheckMaterial(p: OpticalProperty, index: nat): (r: Outcome<MaterialError>)
    ensures r == Pass <==> IsValidMaterial(p)
    ensures r == Fail(MissingRefractiveIndex(index)) <==> !HasData(p.refractiveIndex)
    ensures r == Fail(EnergyGridNotIncreasing) <==>
              HasData(p.refractiveIndex) && !IsMonotonicIncreasing(p.refractiveIndex.x)
    ensures r == Fail(IndexNotIncreasing) <==>
              HasData(p.refractiveIndex) && IsMonotonicIncreasing(p.refractiveIndex.x)
              && !IsMonotonicIncreasing(p.refractiveIndex.y)
  {
    var v := p.refractiveIndex;
    if !HasData(v) then Fail(MissingRefractiveIndex(index))
    else if !IsMonotonicIncreasing(v.x) then Fail(EnergyGridNotIncreasing)
    else if !IsMonotonicIncreasing(v.y) then Fail(IndexNotIncreasing)
    else Pass
  }

  /** The grid stored for a validated vector. */
  function BuildGrid(v: PhysicsVector): Grid {
    Grid(v.x, v.y)
  }

  /** Grid `i` was built from material `i`. */
  predicate GridsMatch(grids: seq<Grid>, props: seq<OpticalProperty>)
    requires |grids| <= |props|
  {
    forall i :: 0 <= i < |grids| ==> grids[i] == BuildGrid(props[i].refractiveIndex)
  }

  /** The validation loop from material `k` on, with the grids of materials before `k` built. */
  function BuildFrom(props: seq<OpticalProperty>, k: nat, grids: seq<Grid>): (r: Result<seq<Grid>, MaterialError>)
    requires k <= |props| && |grids| == k
    requires GridsMatch(grids, props)
    ensures r.Success? <==> forall j :: k <= j < |props| ==> IsValidMaterial(props[j])
    ensures r.Success? ==> |r.value| == |props| && GridsMatch(r.value, props)
    ensures r.Failure? ==>
              exists j :: k <= j < |props|
                && CheckMaterial(props[j], j) == Fail(r.error)
                && forall i :: k <= i < j ==> IsValidMaterial(props[i])
    decreases |props| - k
  {
    if k == |props| then Success(grids)
    else match CheckMaterial(props[k], k)
      case Fail(e) => Failure(e)
      case Pass => BuildFrom(props, k + 1, grids + [BuildGrid(props[k].refractiveIndex)])
  }

  /**
   * Construction from optical properties: every material must carry a
   * refractive index whose energy grid and values both increase strictly;
   * the first material that does not is reported. A first value below one
   * is accepted. On success there is exactly one grid per material, in input
   * order, and every grid increases strictly in both coordinates.
   */
  function Construct(inp: Input): (r: Result<MaterialParams, MaterialError>)
    requires |inp.properties| > 0
    ensures r.Success? <==> forall j :: 0 <= j < |inp.properties| ==> IsValidMaterial(inp.properties[j])
    ensures r.Success? ==>
              && |r.value.refractiveIndex| == |inp.properties|
              && forall i :: 0 <= i < |inp.properties| ==>
                   && r.value.refractiveIndex[i].x == inp.properties[i].refractiveIndex.x
                   && r.value.refractiveIndex[i].y == inp.properties[i].refractiveIndex.y
                   && IsMonotonicIncreasing(r.value.refractiveIndex[i].x)
                   && IsMonotonicIncreasing(r.value.refractiveIndex[i].y)
    ensures r.Failure? ==>
              exists j :: 0 <= j < |inp.properties|
                && CheckMaterial(inp.properties[j], j) == Fail(r.error)
                && forall i :: 0 <= i < j ==> IsValidMaterial(inp.properties[i])
  {
    match BuildFrom(inp.properties, 0, [])
    case Success(grids) => Success(MaterialParams(grids))
    case Failure(e) => Failure(e)
  }

  /**
   * Construction from imported data. With no material carrying properties
   * the result is "no parameters"; otherwise every material, in import
   * order, is passed to the constructor, which validates it.
   */
  function FromImport(data: seq<ImportOpticalMaterial>): (r: Result<Option<MaterialParams>, MaterialError>)
    requires |data| > 0
    ensures r == Success(None) <==> forall i :: 0 <= i < |data| ==> !HasProperties(data[i].properties)
    ensures r.Success? <==>
              || (forall i :: 0 <= i < |data| ==> IsValidMaterial(data[i].properties))
              || (forall i :: 0 <= i < |data| ==> !HasProperties(data[i].properties))
    ensures r.Success? && r.value.Some? ==>
              && |r.value.value.refractiveIndex| == |data|
              && forall i :: 0 <= i < |data| ==>
                   r.value.value.refractiveIndex[i] == BuildGrid(data[i].properties.refractiveIndex)
  {
    if forall i :: 0 <= i < |data| ==> !HasProperties(data[i].properties) then Success(None)
    else
      var inp := Input(seq(|data|, i requires 0 <= i < |data| => data[i].properties));
      assert forall i :: 0 <= i < |data| ==> inp.properties[i] == data[i].properties;
      match Construct(inp)
      case Success(params) => Success(Some(params))
      case Failure(e) => Failure(e)
  }

  /**
   * Import data in which one material has properties and another has none
   * is rejected: the material without properties lacks a refractive index.
   * The error reported is that of the first invalid material, so it names
   * the material without properties only when every material before it is
   * valid.
   */
  lemma MixedImportFails(data: seq<ImportOpticalMaterial>, i: nat, j: nat)
    requires i < |data| && j < |data|
    requires HasProperties(data[i].properties) && !HasProperties(data[j].properties)
    ensures FromImport(data).Failure?
    ensures (forall k :: 0 <= k < j ==> IsValidMaterial(data[k].properties)) ==>
              FromImport(data) == Failure(MissingRefractiveIndex(j))
  {
    if forall k :: 0 <= k < j ==> IsValidMaterial(data[k].properties) {
      var inp := Input(seq(|data|, n requires 0 <= n < |data| => data[n].properties));
      assert forall n :: 0 <= n < |data| ==> inp.properties[n] == data[n].properties;
      var r := Construct(inp);
      assert !IsValidMaterial(inp.properties[j]);
      var f :| 0 <= f < |inp.properties|
        && CheckMaterial(inp.properties[f], f) == Fail(r.error)
        && forall n :: 0 <= n < f ==> IsValidMaterial(inp.properties[n]);
      assert f == j;
    }
  }

  /** The error of mixed data is that of its first invalid material, here a decreasing energy grid. */
  lemma MixedImportReportsFirstError(data: seq<ImportOpticalMaterial>)
    requires data == [ImportOpticalMaterial(OpticalProperty(PhysicsVector([2.0, 1.0], [1.0, 2.0]))),
                      ImportOpticalMaterial(OpticalProperty(PhysicsVector([], [])))]
    ensures FromImport(data) == Failure(EnergyGridNotIncreasing)
  {
    var x := data[0].properties.refractiveIndex.x;
    assert x[0] == 2.0 && x[1] == 1.0;
    assert !(x[0] < x[1]);
    assert HasProperties(data[0].properties);
  }

  /** A refractive index that starts below one is accepted. */
  lemma BelowUnityAccepted()
    ensures var v := PhysicsVector([1.0, 2.0], [0.5, 0.75]);
            Construct(Input([OpticalProperty(v)])) == Success(MaterialParams([Grid(v.x, v.y)]))
  {
    var v := PhysicsVector([1.0, 2.0], [0.5, 0.75]);
    var inp := Input([OpticalProperty(v)]);
    assert IsValidMaterial(inp.properties[0]);
    var r := Construct(inp);
    assert r.Success?;
    assert r.value.refractiveIndex[0] == Grid(v.x, v.y);
    assert r.value.refractiveIndex == [Grid(v.x, v.y)];
  }
}

=== FILE: output_manager.dfy ===
/**
 * Registry of output interfaces: one map from name to interface per
 * category. Rendering the registered interfaces is not modelled; only which
 * categories get a key in the output is, including the `"*"` interface that
 * rewrites its category's object instead of adding a key.
 */
module Output {
  import opened Wrappers

  /** Output categories; `Size` is the enumeration's count sentinel, not a category. */
  datatype Category = Input | Result | System | Internal | Size

  /** An output interface: its category, its label (`name`, as `label` is reserved in Dafny) and an identity for the object itself. */
  datatype Iface = Iface(category: Category, name: string, id: nat)

  datatype OutputError = EmptyLabel | DuplicateEntry(name: string, category: Category)

  /** The registered interfaces, per category and then per name. */
  type Interfaces = map<Category, map<string, Iface>>

  /** The name map of one category; a category never written to has an empty map. */
  function Lookup(m: Interfaces, c: Category): map<string, Iface> {
    if c in m then m[c] else map[]
  }

  /** Every stored interface sits under its own non-empty name and its own real category. */
  predicate Consistent(m: Interfaces) {
    forall c, l :: c in m && l in m[c] ==>
      && c != Size
      && l != []
      && m[c][l].name == l
      && m[c][l].category == c
  }

  /**
   * Registers an interface under its category and name. An empty name and
   * a name already registered in the same category are rejected, and then
   * the registry is left as it was (an existing entry is not overwritten).
   * On success exactly one entry is added, to the interface's category.
   */
  function Insert(m: Interfaces, iface: Iface): (r: (Interfaces, Outcome<OutputError>))
    requires iface.category != Size
    ensures r.1 == Fail(EmptyLabel) <==> iface.name == []
    ensures r.1 == Fail(DuplicateEntry(iface.name, iface.category)) <==>
              iface.name != [] && iface.name in Lookup(m, iface.category)
    ensures r.1 == Pass <==> iface.name != [] && iface.name !in Lookup(m, iface.category)
    ensures r.1.Fail? ==> r.0 == m
    ensures r.1 == Pass ==>
              && Lookup(r.0, iface.category) == Lookup(m, iface.category)[iface.name := iface]
              && |Lookup(r.0, iface.category)| == |Lookup(m, iface.category)| + 1
              && (forall c :: c != iface.category ==> Lookup(r.0, c) == Lookup(m, c))
  {
    var cat := iface.category;
    if iface.name == [] then (m, Fail(EmptyLabel))
    else if iface.name in Lookup(m, cat) then (m, Fail(DuplicateEntry(iface.name, cat)))
    else (m[cat := Lookup(m, cat)[iface.name := iface]], Pass)
  }

  /** Insertion keeps the registry consistent. */
  lemma InsertKeepsConsistent(m: Interfaces, iface: Iface)
    requires Consistent(m) && iface.category != Size
    ensures Consistent(Insert(m, iface).0)
  {
  }

  /**
   * The same name may be registered once in each of two categories: the
   * name maps are separate.
   */
  lemma SameLabelInTwoCategories(m: Interfaces, a: Iface, b: Iface)
    requires a.category != Size && b.category != Size && a.category != b.category
    requires a.name == b.name && a.name != []
    requires a.name !in Lookup(m, a.category) && b.name !in Lookup(m, b.category)
    ensures Insert(m, a).1 == Pass
    ensures Insert(Insert(m, a).0, b).1 == Pass
    ensures var both := Insert(Insert(m, a).0, b).0;
            Lookup(both, a.category)[a.name] == a && Lookup(both, b.category)[b.name] == b
  {
  }

  /** Registering the same (category, name) twice fails the second time and keeps the first interface. */
  lemma SecondInsertRejected(m: Interfaces, a: Iface, b: Iface)
    requires a.category != Size && a.category == b.category && a.name == b.name
    requires Insert(m, a).1 == Pass
    ensures Insert(Insert(m, a).0, b) == (Insert(m, a).0, Fail(DuplicateEntry(b.name, b.category)))
    ensures Lookup(Insert(Insert(m, a).0, b).0, a.category)[a.name] == a
  {
  }

  //--------------------------------------------------------------------------
  // Which categories reach the output
  //--------------------------------------------------------------------------

  /** The categories proper, without the count sentinel. */
  const AllCategories: set<Category> := {Input, Result, System, Internal}

  /** The label whose interface writes into its category's object instead of under a key of its own. */
  const GlobalLabel: string := "*"

  /** Strict lexicographic order of labels, by character code: the order of `std::string`. */
  predicate LabelLess(a: string, b: string) {
    if |a| == 0 then |b| > 0
    else if |b| == 0 then false
    else a[0] < b[0] || (a[0] == b[0] && LabelLess(a[1..], b[1..]))
  }

  /** A label that starts with a letter or digit (any character after `*`) sorts after `"*"`. */
  lemma LabelAfterGlobal(l: string)
    requires |l| > 0 && l[0] > '*'
    ensures LabelLess(GlobalLabel, l)
  {
  }

  /** No label sorts both before and after `"*"`. */
  lemma GlobalNotBoth(l: string)
    ensures !(LabelLess(l, GlobalLabel) && LabelLess(GlobalLabel, l))
  {
    assert GlobalLabel[1..] == [];
  }

  /**
   * `entries` is how a category's name map is iterated: each (label,
   * interface) pair once, by increasing label.
   */
  predicate IterationOrder(entries: seq<(string, Iface)>, names: map<string, Iface>) {
    && (forall i, j :: 0 <= i < j < |entries| ==> LabelLess(entries[i].0, entries[j].0))
    && (forall i :: 0 <= i < |entries| ==> entries[i].0 in names && names[entries[i].0] == entries[i].1)
    && (forall l :: l in names ==> exists i :: 0 <= i < |entries| && entries[i].0 == l)
  }

  lemma {:induction false} LabelLessIrreflexive(a: string)
    ensures !LabelLess(a, a)
  {
    if |a| > 0 {
      LabelLessIrreflexive(a[1..]);
    }
  }

  /** The labels of a sequence of entries. */
  function Labels(entries: seq<(string, Iface)>): set<string> {
    set i | 0 <= i < |entries| :: entries[i].0
  }

  lemma {:induction false} DistinctLabelsCount(entries: seq<(string, Iface)>)
    requires forall i, j :: 0 <= i < j < |entries| ==> entries[i].0 != entries[j].0
    ensures |Labels(entries)| == |entries|
  {
    if |entries| > 0 {
      DistinctLabelsCount(entries[1..]);
      assert Labels(entries) == {entries[0].0} + Labels(entries[1..]);
      assert entries[0].0 !in Labels(entries[1..]);
    }
  }

  /** Iteration visits each registered interface exactly once. */
  lemma IterationCount(entries: seq<(string, Iface)>, names: map<string, Iface>)
    requires IterationOrder(entries, names)
    ensures |entries| == |names|
    ensures Labels(entries) == names.Keys
  {
    forall i, j | 0 <= i < j < |entries|
      ensures entries[i].0 != entries[j].0
    {
      LabelLessIrreflexive(entries[i].0);
    }
    forall l | l in names.Keys
      ensures l in Labels(entries)
    {
      var i :| 0 <= i < |entries| && entries[i].0 == l;
    }
    assert Labels(entries) == names.Keys;
    DistinctLabelsCount(entries);
    assert |names| == |names.Keys|;
  }

  /** An iteration order for every category of the registry. */
  predicate IterationOrders(m: Interfaces, order: Category -> seq<(string, Iface)>) {
    forall c :: c in AllCategories ==> IterationOrder(order(c), Lookup(m, c))
  }

  /**
   * The shape of a category's JSON value, as far as the output loop needs
   * it: `json::empty()` holds for null, an empty object and an empty array;
   * writing under a string key turns null into an object, adds the key to an
   * object, and throws a type error on anything else.
   */
  datatype Shape = Null | EmptyObject | FilledObject | EmptyArray | FilledArray | Scalar

  predicate IsEmpty(j: Shape) {
    j.Null? || j.EmptyObject? || j.EmptyArray?
  }

  /** Whether a value can take a key: null and objects can. */
  predicate TakesKeys(j: Shape) {
    j.Null? || j.EmptyObject? || j.FilledObject?
  }

  /**
   * The shape of a category's value after the `"*"` interface rewrote it,
   * given the shape it received. What that interface writes is opaque, so
   * this is a parameter of the model.
   */
  type GlobalWrite = (Iface, Shape) -> Shape

  /** A `"*"` interface that, handed null or an object, hands back null or an object. */
  ghost predicate KeepsObject(global: GlobalWrite) {
    forall iface, j :: TakesKeys(j) ==> TakesKeys(global(iface, j))
  }

  /**
   * A category's value after writing `entries` in turn, starting from `j`:
   * an ordinary interface is stored under its label, the `"*"` interface
   * rewrites the value as a whole. Storing under a label when the value is
   * not null or an object throws; the failure carries that label.
   */
  function CategoryObject(entries: seq<(string, Iface)>, global: GlobalWrite, j: Shape): (r: Result<Shape, string>)
    ensures (forall i :: 0 <= i < |entries| ==> entries[i].0 != GlobalLabel) && TakesKeys(j) ==>
              r == Success(if |entries| == 0 then j else FilledObject)
    ensures r.Success? && |entries| > 0 && entries[|entries| - 1].0 != GlobalLabel ==> r.value == FilledObject
    ensures r.Failure? ==> r.error != GlobalLabel && exists i :: 0 <= i < |entries| && entries[i].0 == r.error
    decreases |entries|
  {
    if |entries| == 0 then Success(j)
    else if entries[0].0 == GlobalLabel then CategoryObject(entries[1..], global, global(entries[0].1, j))
    else if TakesKeys(j) then CategoryObject(entries[1..], global, FilledObject)
    else Failure(entries[0].0)
  }

  /** Writing a sequence of entries is writing a prefix, then the rest from where the prefix left off. */
  lemma {:induction false} CategoryObjectSplit(entries: seq<(string, Iface)>, k: nat, global: GlobalWrite, j: Shape)
    requires k <= |entries|
    ensures CategoryObject(entries, global, j) ==
              match CategoryObject(entries[..k], global, j)
              case Failure(e) => Failure(e)
              case Success(s) => CategoryObject(entries[k..], global, s)
    decreases k
  {
    if k == 0 {
      assert entries[..0] == [] && entries[0..] == entries;
    } else {
      var next := if entries[0].0 == GlobalLabel then global(entries[0].1, j) else FilledObject;
      assert entries[..k][1..] == entries[1..][..k - 1];
      assert entries[1..][k - 1..] == entries[k..];
      if entries[0].0 == GlobalLabel || TakesKeys(j) {
        CategoryObjectSplit(entries[1..], k - 1, global, next);
      }
    }
  }

  /** A `"*"` interface that keeps an object keeps the whole category from throwing. */
  lemma {:induction false} ObjectKeptThroughout(entries: seq<(string, Iface)>, global: GlobalWrite, j: Shape)
    requires KeepsObject(global) && TakesKeys(j)
    ensures CategoryObject(entries, global, j).Success?
    ensures TakesKeys(CategoryObject(entries, global, j).value)
    decreases |entries|
  {
    if |entries| > 0 {
      if entries[0].0 == GlobalLabel {
        ObjectKeptThroughout(entries[1..], global, global(entries[0].1, j));
      } else {
        ObjectKeptThroughout(entries[1..], global, FilledObject);
      }
    }
  }

  /** A category gets a key in the output when writing all its interfaces succeeds and leaves a non-empty value. */
  predicate KeyWritten(entries: seq<(string, Iface)>, global: GlobalWrite) {
    var r := CategoryObject(entries, global, Null);
    r.Success? && !IsEmpty(r.value)
  }

  /** Whether writing a category's interfaces throws. */
  predicate CategoryThrows(entries: seq<(string, Iface)>, global: GlobalWrite) {
    CategoryObject(entries, global, Null).Failure?
  }

  /** A category with no interfaces stays null: it contributes no key and cannot throw. */
  lemma EmptyCategoryOmitted(entries: seq<(string, Iface)>, names: map<string, Iface>, global: GlobalWrite)
    requires IterationOrder(entries, names) && |names| == 0
    ensures CategoryObject(entries, global, Null) == Success(Null)
  {
  }

  /**
   * Without a `"*"` interface a category never throws, and it gets a key
   * exactly when it has an interface.
   */
  lemma PlainCategoryWritten(entries: seq<(string, Iface)>, names: map<string, Iface>, global: GlobalWrite)
    requires IterationOrder(entries, names) && GlobalLabel !in names
    ensures CategoryObject(entries, global, Null) == Success(if |names| == 0 then Null else FilledObject)
  {
    assert forall i :: 0 <= i < |entries| ==> entries[i].0 in names;
    IterationCount(entries, names);
  }

  /**
   * A category whose only interface is the `"*"` one holds what that
   * interface makes of null, so it gets a key exactly when that is not empty.
   */
  lemma GlobalOnlyCategory(entries: seq<(string, Iface)>, iface: Iface, global: GlobalWrite)
    requires IterationOrder(entries, map[GlobalLabel := iface])
    ensures CategoryObject(entries, global, Null) == Success(global(iface, Null))
    ensures KeyWritten(entries, global) <==> !IsEmpty(global(iface, Null))
  {
    var names := map[GlobalLabel := iface];
    IterationCount(entries, names);
    assert entries[0].0 in names;
    assert entries == [(GlobalLabel, iface)];
  }

  /**
   * A label that sorts after `"*"` is written after the `"*"` interface:
   * either that write throws, or the category ends as a non-empty object.
   */
  lemma LaterLabelWritten(entries: seq<(string, Iface)>, names: map<string, Iface>, global: GlobalWrite, l: string)
    requires IterationOrder(entries, names)
    requires l in names && LabelLess(GlobalLabel, l)
    ensures CategoryObject(entries, global, Null).Failure? || CategoryObject(entries, global, Null) == Success(FilledObject)
  {
    var i :| 0 <= i < |entries| && entries[i].0 == l;
    var last := |entries| - 1;
    assert i < last ==> LabelLess(l, entries[last].0);
    GlobalNotBoth(l);
    assert entries[last].0 != GlobalLabel;
  }

  /** A `"*"` entry that leaves a value unable to take keys, followed by an ordinary entry, throws. */
  lemma GlobalThenLabelThrows(entries: seq<(string, Iface)>, global: GlobalWrite, j: Shape)
    requires |entries| >= 2 && entries[0].0 == GlobalLabel && entries[1].0 != GlobalLabel
    requires !TakesKeys(global(entries[0].1, j))
    ensures CategoryObject(entries, global, j) == Failure(entries[1].0)
  {
    assert entries[1..][0] == entries[1];
  }

  /**
   * When the `"*"` interface leaves neither null nor an object, the next
   * label after it throws: a category with a `"*"` interface and a label
   * sorting after it makes the whole output fail.
   */
  lemma GlobalNonObjectThrows(entries: seq<(string, Iface)>, names: map<string, Iface>, global: GlobalWrite, l: string)
    requires IterationOrder(entries, names)
    requires GlobalLabel in names && l in names && LabelLess(GlobalLabel, l)
    requires forall j :: !TakesKeys(global(names[GlobalLabel], j))
    ensures CategoryObject(entries, global, Null).Failure?
  {
    var g :| 0 <= g < |entries| && entries[g].0 == GlobalLabel;
    var i :| 0 <= i < |entries| && entries[i].0 == l;
    assert i < g ==> LabelLess(l, GlobalLabel);
    GlobalNotBoth(l);
    assert g < i;
    LabelLessIrreflexive(GlobalLabel);
    assert forall k :: 0 <= k < g ==> entries[..g][k].0 != GlobalLabel;
    CategoryObjectSplit(entries, g, global, Null);
    var before := CategoryObject(entries[..g], global, Null);
    assert LabelLess(GlobalLabel, entries[g + 1].0);
    GlobalThenLabelThrows(entries[g..], global, before.value);
  }

  /** A `"*"` interface that leaves an empty array, followed by the label `"a"`: writing `"a"` throws. */
  lemma GlobalArrayThenLabel(g: Iface, a: Iface, global: GlobalWrite)
    requires forall j :: global(g, j) == EmptyArray
    ensures CategoryObject([(GlobalLabel, g), ("a", a)], global, Null) == Failure("a")
  {
    var entries := [(GlobalLabel, g), ("a", a)];
    assert entries[1..] == [("a", a)];
    assert entries[1..][1..] == [];
  }

  /** The categories that end non-empty once all their interfaces wrote. */
  function CategoriesWritten(order: Category -> seq<(string, Iface)>, global: GlobalWrite): set<Category> {
    set c | c in AllCategories && KeyWritten(order(c), global)
  }

  /** Whether writing some category throws, which makes the whole output throw. */
  predicate SomeCategoryThrows(order: Category -> seq<(string, Iface)>, global: GlobalWrite) {
    exists c :: c in AllCategories && CategoryThrows(order(c), global)
  }

  /** The per-category facts the output relies on, gathered from the lemmas above. */
  lemma CategoryFacts(entries: seq<(string, Iface)>, names: map<string, Iface>, global: GlobalWrite)
    requires IterationOrder(entries, names)
    ensures |names| == 0 ==> !KeyWritten(entries, global)
    ensures GlobalLabel !in names ==> (KeyWritten(entries, global) <==> |names| > 0)
    ensures KeepsObject(global) ==> !CategoryThrows(entries, global)
    ensures forall l :: l in names && LabelLess(GlobalLabel, l) ==> CategoryThrows(entries, global) || KeyWritten(entries, global)
  {
    if |names| == 0 {
      EmptyCategoryOmitted(entries, names, global);
    }
    if GlobalLabel !in names {
      PlainCategoryWritten(entries, names, global);
    }
    if KeepsObject(global) {
      ObjectKeptThroughout(entries, global, Null);
    }
    forall l | l in names && LabelLess(GlobalLabel, l)
      ensures CategoryThrows(entries, global) || KeyWritten(entries, global)
    {
      LaterLabelWritten(entries, names, global, l);
    }
  }

  /**
   * The categories that get a key in the output, or `None` when writing
   * throws. A category without interfaces never appears; one without a
   * `"*"` interface appears exactly when it has an interface; one with a
   * label sorting after `"*"` appears. When the `"*"` interface always keeps
   * an object, nothing throws.
   */
  function OutputCategories(m: Interfaces, order: Category -> seq<(string, Iface)>, global: GlobalWrite): (r: Option<set<Category>>)
    requires IterationOrders(m, order)
    ensures r.Some? ==> r.value <= AllCategories
    ensures KeepsObject(global) ==> r.Some?
    ensures r.Some? ==> forall c :: c in AllCategories && |Lookup(m, c)| == 0 ==> c !in r.value
    ensures r.Some? ==> forall c :: c in AllCategories && GlobalLabel !in Lookup(m, c) ==> (c in r.value <==> |Lookup(m, c)| > 0)
    ensures r.Some? ==> forall c, l :: c in AllCategories && l in Lookup(m, c) && LabelLess(GlobalLabel, l) ==> c in r.value
  {
    assert forall c | c in AllCategories ::
             && (|Lookup(m, c)| == 0 ==> !KeyWritten(order(c), global))
             && (GlobalLabel !in Lookup(m, c) ==> (KeyWritten(order(c), global) <==> |Lookup(m, c)| > 0))
             && (KeepsObject(global) ==> !CategoryThrows(order(c), global))
             && (forall l :: l in Lookup(m, c) && LabelLess(GlobalLabel, l) ==>
                   CategoryThrows(order(c), global) || KeyWritten(order(c), global)) by {
      forall c | c in AllCategories {
        CategoryFacts(order(c), Lookup(m, c), global);
      }
    }
    if SomeCategoryThrows(order, global) then None else Some(CategoriesWritten(order, global))
  }

  /** Without any `"*"` interface nothing throws, and exactly the categories with an interface appear. */
  lemma PlainRegistryOutput(m: Interfaces, order: Category -> seq<(string, Iface)>, global: GlobalWrite)
    requires IterationOrders(m, order)
    requires forall c :: c in AllCategories ==> GlobalLabel !in Lookup(m, c)
    ensures OutputCategories(m, order, global) == Some(set c | c in AllCategories && |Lookup(m, c)| > 0)
  {
    forall c | c in AllCategories
      ensures CategoryObject(order(c), global, Null) == Success(if |Lookup(m, c)| == 0 then Null else FilledObject)
    {
      PlainCategoryWritten(order(c), Lookup(m, c), global);
    }
    assert !SomeCategoryThrows(order, global);
    assert CategoriesWritten(order, global) == set c | c in AllCategories && |Lookup(m, c)| > 0;
  }

  /**
   * A category with a `"*"` interface that never leaves null or an object,
   * and a label sorting after `"*"`, makes the whole output throw.
   */
  lemma NonObjectGlobalOutput(m: Interfaces, order: Category -> seq<(string, Iface)>, global: GlobalWrite, c: Category, l: string)
    requires IterationOrders(m, order)
    requires c in AllCategories && GlobalLabel in Lookup(m, c) && l in Lookup(m, c) && LabelLess(GlobalLabel, l)
    requires forall j :: !TakesKeys(global(Lookup(m, c)[GlobalLabel], j))
    ensures OutputCategories(m, order, global) == None
  {
    GlobalNonObjectThrows(order(c), Lookup(m, c), global, l);
  }

  /** Iterations that agree outside one category write the same categories, apart from that one. */
  lemma OrdersAgreeElsewhere(before: Category -> seq<(string, Iface)>, after: Category -> seq<(string, Iface)>,
                             global: GlobalWrite, cat: Category)
    requires forall c :: c != cat ==> after(c) == before(c)
    requires cat in CategoriesWritten(after, global)
    ensures CategoriesWritten(after, global) == CategoriesWritten(before, global) + {cat}
  {
    var old_ := CategoriesWritten(before, global);
    var new_ := CategoriesWritten(after, global);
    forall c | c != cat
      ensures c in new_ <==> c in old_
    {
      assert after(c) == before(c);
    }
  }

  /**
   * A failed insert changes nothing. A successful insert of a label that
   * sorts after `"*"` either makes the output throw or puts its category in
   * the output; when the `"*"` interface keeps an object, it adds exactly
   * that category and leaves the others' presence as it was.
   */
  lemma InsertOutputCategories(m: Interfaces, iface: Iface,
                               before: Category -> seq<(string, Iface)>, after: Category -> seq<(string, Iface)>,
                               global: GlobalWrite)
    requires iface.category != Size
    requires IterationOrders(m, before) && IterationOrders(Insert(m, iface).0, after)
    requires forall c :: c != iface.category ==> after(c) == before(c)
    ensures Insert(m, iface).1.Fail? ==> OutputCategories(Insert(m, iface).0, before, global) == OutputCategories(m, before, global)
    ensures Insert(m, iface).1 == Pass && LabelLess(GlobalLabel, iface.name) ==>
              (OutputCategories(Insert(m, iface).0, after, global).Some? ==>
                 iface.category in OutputCategories(Insert(m, iface).0, after, global).value)
    ensures Insert(m, iface).1 == Pass && LabelLess(GlobalLabel, iface.name) && KeepsObject(global) ==>
              && OutputCategories(Insert(m, iface).0, after, global).Some?
              && OutputCategories(m, before, global).Some?
              && OutputCategories(Insert(m, iface).0, after, global).value == OutputCategories(m, before, global).value + {iface.category}
  {
    var (m', outcome) := Insert(m, iface);
    if outcome == Pass && LabelLess(GlobalLabel, iface.name) {
      assert iface.name in Lookup(m', iface.category);
      if KeepsObject(global) {
        assert iface.category in OutputCategories(m', after, global).value;
        OrdersAgreeElsewhere(before, after, global, iface.category);
      }
    }
  }
}

=== FILE: track_sort.dfy ===
/**
 * Reordering of track slots between steps.
 *
 * A stream's state keeps a mapping `trackSlots` from thread rank to the
 * storage index of a track slot. The two reordering policies rewrite only
 * that mapping: the per-slot status and step-limit records stay where they
 * are and are read through the new mapping.
 *
 * The algorithm that performs the reordering is specified here by its
 * contract (a permutation of the ranks for which the policy's predicate
 * holds); `Partition` and `SortByAction` are simple reference
 * implementations proved against that contract.
 */
module TrackSort {

  /** Lifecycle status of one track slot; only `Alive` matters for reordering. */
  datatype TrackStatus = Inactive | Initializing | Alive | Killed

  /** The action that will next act on a slot, and the step length before it does. */
  datatype StepLimit = StepLimit(action: nat, step: real)

  /** The per-slot data a reordering reads, plus the rank-to-slot mapping it writes. */
  datatype Lanes = Lanes(trackSlots: seq<nat>, status: seq<TrackStatus>, stepLimit: seq<StepLimit>)

  /** The reordering policies. */
  datatype TrackOrder = PartitionStatus | SortStepLimitAction

  /** Every rank refers to an existing slot. */
  predicate SlotsIn(slots: seq<nat>, n: nat) {
    forall i :: 0 <= i < |slots| ==> slots[i] < n
  }

  /** The per-slot arrays have one entry per slot and every rank names one of them. */
  predicate WellFormed(l: Lanes) {
    |l.status| == |l.stepLimit| && SlotsIn(l.trackSlots, |l.status|)
  }

  predicate IsAlive(status: seq<TrackStatus>, slot: nat)
    requires slot < |status|
  {
    status[slot] == Alive
  }

  function ActionOf(stepLimit: seq<StepLimit>, slot: nat): nat
    requires slot < |stepLimit|
  {
    stepLimit[slot].action
  }

  //--------------------------------------------------------------------------
  // Partition by status
  //--------------------------------------------------------------------------

  /**
   * The partition predicate of the status test (`std::is_partitioned` with
   * "slot is alive"): no rank holding an alive slot follows a rank holding a
   * slot that is not alive.
   */
  predicate IsPartitioned(slots: seq<nat>, status: seq<TrackStatus>)
    requires SlotsIn(slots, |status|)
  {
    forall i, j :: 0 <= i < j < |slots| && IsAlive(status, slots[j]) ==> IsAlive(status, slots[i])
  }

  /** Ranks below `k` hold alive slots and ranks from `k` on hold slots that are not alive. */
  predicate SplitsAt(slots: seq<nat>, status: seq<TrackStatus>, k: nat)
    requires SlotsIn(slots, |status|)
  {
    && k <= |slots|
    && (forall i :: 0 <= i < k ==> IsAlive(status, slots[i]))
    && (forall i :: k <= i < |slots| ==> !IsAlive(status, slots[i]))
  }

  /** Number of ranks, counted from the front, that hold alive slots before the first one that does not. */
  function LeadingAlive(slots: seq<nat>, status: seq<TrackStatus>): (k: nat)
    requires SlotsIn(slots, |status|)
    ensures k <= |slots|
    ensures forall i :: 0 <= i < k ==> IsAlive(status, slots[i])
    ensures k < |slots| ==> !IsAlive(status, slots[k])
  {
    if |slots| == 0 || !IsAlive(status, slots[0]) then 0
    else 1 + LeadingAlive(slots[1..], status)
  }

  /** Number of ranks that hold alive slots. */
  function CountAlive(slots: seq<nat>, status: seq<TrackStatus>): nat
    requires SlotsIn(slots, |status|)
  {
    if |slots| == 0 then 0
    else (if IsAlive(status, slots[0]) then 1 else 0) + CountAlive(slots[1..], status)
  }

  /** The ranks whose slot's aliveness equals `alive`, in their original order. */
  function Select(slots: seq<nat>, status: seq<TrackStatus>, alive: bool): (r: seq<nat>)
    requires SlotsIn(slots, |status|)
    ensures SlotsIn(r, |status|)
    ensures forall k :: 0 <= k < |r| ==> IsAlive(status, r[k]) == alive
  {
    if |slots| == 0 then []
    else
      var rest := Select(slots[1..], status, alive);
      if IsAlive(status, slots[0]) == alive then [slots[0]] + rest else rest
  }

  /** The two selections together hold every rank exactly as often as the input. */
  lemma {:induction false} SelectSplit(slots: seq<nat>, status: seq<TrackStatus>)
    requires SlotsIn(slots, |status|)
    ensures multiset(Select(slots, status, true)) + multiset(Select(slots, status, false)) == multiset(slots)
  {
    if |slots| > 0 {
      SelectSplit(slots[1..], status);
      assert slots == [slots[0]] + slots[1..];
    }
  }

  /** The alive selection has one entry per alive rank. */
  lemma {:induction false} SelectAliveCount(slots: seq<nat>, status: seq<TrackStatus>)
    requires SlotsIn(slots, |status|)
    ensures |Select(slots, status, true)| == CountAlive(slots, status)
  {
    if |slots| > 0 {
      SelectAliveCount(slots[1..], status);
    }
  }

  /**
   * Partition by status: alive slots first. The reference keeps the relative
   * order within each group, which the contract does not promise.
   */
  function Partition(l: Lanes): (r: Lanes)
    requires WellFormed(l)
    ensures WellFormed(r)
    ensures r.status == l.status && r.stepLimit == l.stepLimit
    ensures multiset(r.trackSlots) == multiset(l.trackSlots)
    ensures IsPartitioned(r.trackSlots, r.status)
    ensures forall i :: 0 <= i < |r.trackSlots| ==>
              (IsAlive(r.status, r.trackSlots[i]) <==> i < CountAlive(l.trackSlots, l.status))
  {
    SelectSplit(l.trackSlots, l.status);
    SelectAliveCount(l.trackSlots, l.status);
    var alive := Select(l.trackSlots, l.status, true);
    var rest := Select(l.trackSlots, l.status, false);
    l.(trackSlots := alive + rest)
  }

  /** `std::is_partitioned` holds exactly when there is a split point. */
  lemma PartitionedIffSplit(slots: seq<nat>, status: seq<TrackStatus>)
    requires SlotsIn(slots, |status|)
    ensures IsPartitioned(slots, status) <==> exists k :: SplitsAt(slots, status, k)
  {
    if IsPartitioned(slots, status) {
      var k := LeadingAlive(slots, status);
      assert SplitsAt(slots, status, k);
    }
    if k :| SplitsAt(slots, status, k) {
      forall i, j | 0 <= i < j < |slots| && IsAlive(status, slots[j])
        ensures IsAlive(status, slots[i])
      {
        assert j < k;
      }
    }
  }

  /** With no alive slot, the alive selection is empty and the other keeps every rank. */
  lemma {:induction false} SelectNoneAlive(slots: seq<nat>, status: seq<TrackStatus>)
    requires SlotsIn(slots, |status|)
    requires forall i :: 0 <= i < |slots| ==> !IsAlive(status, slots[i])
    ensures Select(slots, status, true) == []
    ensures Select(slots, status, false) == slots
  {
    if |slots| > 0 {
      SelectNoneAlive(slots[1..], status);
      assert slots == [slots[0]] + slots[1..];
    }
  }

  /** On a partitioned mapping the two selections give the mapping back. */
  lemma {:induction false} SelectOfPartitioned(slots: seq<nat>, status: seq<TrackStatus>)
    requires SlotsIn(slots, |status|)
    requires IsPartitioned(slots, status)
    ensures Select(slots, status, true) + Select(slots, status, false) == slots
  {
    if |slots| > 0 {
      if IsAlive(status, slots[0]) {
        SelectOfPartitioned(slots[1..], status);
        assert slots == [slots[0]] + slots[1..];
      } else {
        SelectNoneAlive(slots, status);
      }
    }
  }

  /** For the reference implementation `Partition`: partitioning a mapping that is already partitioned changes nothing. */
  lemma PartitionIdempotent(l: Lanes)
    requires WellFormed(l)
    requires IsPartitioned(l.trackSlots, l.status)
    ensures Partition(l) == l
  {
    SelectOfPartitioned(l.trackSlots, l.status);
  }

  /**
   * For the reference implementation `Partition`: partitioning twice in a
   * row gives the result of partitioning once. The source's partition need
   * not be stable, so this is not promised of it.
   */
  lemma PartitionTwice(l: Lanes)
    requires WellFormed(l)
    ensures Partition(Partition(l)) == Partition(l)
  {
    PartitionIdempotent(Partition(l));
  }

  //--------------------------------------------------------------------------
  // Sort by step-limit action
  //--------------------------------------------------------------------------

  /**
   * The ordering predicate of the step-limit test: for consecutive ranks the
   * step-limit action id does not decrease.
   */
  predicate IsSortedByAction(slots: seq<nat>, stepLimit: seq<StepLimit>)
    requires SlotsIn(slots, |stepLimit|)
  {
    forall i :: 0 <= i && i + 1 < |slots| ==> ActionOf(stepLimit, slots[i]) <= ActionOf(stepLimit, slots[i + 1])
  }

  lemma {:induction false} SortedPair(slots: seq<nat>, stepLimit: seq<StepLimit>, i: nat, j: nat)
    requires SlotsIn(slots, |stepLimit|)
    requires IsSortedByAction(slots, stepLimit)
    requires i <= j < |slots|
    ensures ActionOf(stepLimit, slots[i]) <= ActionOf(stepLimit, slots[j])
    decreases j - i
  {
    if i < j {
      SortedPair(slots, stepLimit, i, j - 1);
      assert ActionOf(stepLimit, slots[j - 1]) <= ActionOf(stepLimit, slots[j]);
    }
  }

  /** Comparing consecutive ranks is the same as comparing every pair of ranks. */
  lemma SortedIffAllPairs(slots: seq<nat>, stepLimit: seq<StepLimit>)
    requires SlotsIn(slots, |stepLimit|)
    ensures IsSortedByAction(slots, stepLimit) <==>
            forall i, j :: 0 <= i < j < |slots| ==> ActionOf(stepLimit, slots[i]) <= ActionOf(stepLimit, slots[j])
  {
    if IsSortedByAction(slots, stepLimit) {
      forall i, j | 0 <= i < j < |slots|
        ensures ActionOf(stepLimit, slots[i]) <= ActionOf(stepLimit, slots[j])
      {
        SortedPair(slots, stepLimit, i, j);
      }
    }
  }

  /** Inserts one rank into a sorted mapping, in front of the first rank with an action no smaller. */
  function InsertByAction(x: nat, sorted: seq<nat>, stepLimit: seq<StepLimit>): (r: seq<nat>)
    requires x < |stepLimit| && SlotsIn(sorted, |stepLimit|)
    requires IsSortedByAction(sorted, stepLimit)
    ensures SlotsIn(r, |stepLimit|)
    ensures multiset(r) == multiset(sorted) + multiset{x}
    ensures IsSortedByAction(r, stepLimit)
    ensures |r| == |sorted| + 1
    ensures r[0] == x || (|sorted| > 0 && r[0] == sorted[0])
  {
    if |sorted| == 0 then [x]
    else if ActionOf(stepLimit, x) <= ActionOf(stepLimit, sorted[0]) then [x] + sorted
    else
      assert sorted == [sorted[0]] + sorted[1..];
      [sorted[0]] + InsertByAction(x, sorted[1..], stepLimit)
  }

  /** Insertion sort of the rank mapping by step-limit action. */
  function SortSlots(slots: seq<nat>, stepLimit: seq<StepLimit>): (r: seq<nat>)
    requires SlotsIn(slots, |stepLimit|)
    ensures SlotsIn(r, |stepLimit|)
    ensures multiset(r) == multiset(slots)
    ensures IsSortedByAction(r, stepLimit)
  {
    if |slots| == 0 then []
    else
      assert slots == [slots[0]] + slots[1..];
      InsertByAction(slots[0], SortSlots(slots[1..], stepLimit), stepLimit)
  }

  /** Sort by step-limit action id; the order among equal ids is not promised. */
  function SortByAction(l: Lanes): (r: Lanes)
    requires WellFormed(l)
    ensures WellFormed(r)
    ensures r.status == l.status && r.stepLimit == l.stepLimit
    ensures multiset(r.trackSlots) == multiset(l.trackSlots)
    ensures IsSortedByAction(r.trackSlots, r.stepLimit)
  {
    l.(trackSlots := SortSlots(l.trackSlots, l.stepLimit))
  }

  /** For the reference implementation `SortSlots`: sorting a mapping that is already sorted changes nothing. */
  lemma {:induction false} SortSlotsIdempotent(slots: seq<nat>, stepLimit: seq<StepLimit>)
    requires SlotsIn(slots, |stepLimit|)
    requires IsSortedByAction(slots, stepLimit)
    ensures SortSlots(slots, stepLimit) == slots
  {
    if |slots| > 0 {
      SortSlotsIdempotent(slots[1..], stepLimit);
      assert slots == [slots[0]] + slots[1..];
    }
  }

  /**
   * For the reference implementation `SortByAction`: sorting twice in a row
   * gives the result of sorting once. The source leaves the order of equal
   * actions unspecified, so this is not promised of it.
   */
  lemma SortTwice(l: Lanes)
    requires WellFormed(l)
    ensures SortByAction(SortByAction(l)) == SortByAction(l)
  {
    SortSlotsIdempotent(SortByAction(l).trackSlots, l.stepLimit);
  }

  /** The step-limit action ids read along the ranks. */
  function ActionsAlong(slots: seq<nat>, stepLimit: seq<StepLimit>): seq<nat>
    requires SlotsIn(slots, |stepLimit|)
  {
    seq(|slots|, i requires 0 <= i < |slots| => ActionOf(stepLimit, slots[i]))
  }

  predicate NonDecreasing(keys: seq<nat>) {
    forall i, j :: 0 <= i < j < |keys| ==> keys[i] <= keys[j]
  }

  lemma MultisetRemoveAt(b: seq<nat>, k: nat)
    requires k < |b|
    ensures multiset(b[..k] + b[k + 1..]) == multiset(b) - multiset{b[k]}
  {
    assert b == b[..k] + [b[k]] + b[k + 1..];
  }

  /** Reading along a mapping with one rank removed drops that rank's action id. */
  lemma ActionsAlongRemoveAt(b: seq<nat>, k: nat, stepLimit: seq<StepLimit>)
    requires SlotsIn(b, |stepLimit|) && k < |b|
    ensures SlotsIn(b[..k] + b[k + 1..], |stepLimit|)
    ensures ActionOf(stepLimit, b[k]) in multiset(ActionsAlong(b, stepLimit))
    ensures multiset(ActionsAlong(b[..k] + b[k + 1..], stepLimit))
            == multiset(ActionsAlong(b, stepLimit)) - multiset{ActionOf(stepLimit, b[k])}
  {
    var keys := ActionsAlong(b, stepLimit);
    assert keys[k] == ActionOf(stepLimit, b[k]);
    assert ActionsAlong(b[..k] + b[k + 1..], stepLimit) == keys[..k] + keys[k + 1..];
    assert keys == keys[..k] + [keys[k]] + keys[k + 1..];
  }

  /** Reading along the tail of a mapping drops the head's action id. */
  lemma ActionsAlongTail(a: seq<nat>, stepLimit: seq<StepLimit>)
    requires SlotsIn(a, |stepLimit|) && |a| > 0
    ensures ActionOf(stepLimit, a[0]) in multiset(ActionsAlong(a, stepLimit))
    ensures multiset(ActionsAlong(a[1..], stepLimit))
            == multiset(ActionsAlong(a, stepLimit)) - multiset{ActionOf(stepLimit, a[0])}
  {
    assert ActionsAlong(a, stepLimit) == [ActionOf(stepLimit, a[0])] + ActionsAlong(a[1..], stepLimit);
  }

  lemma MultisetCancel(x: multiset<nat>, y: multiset<nat>, key: nat)
    requires key in x && key in y
    requires x - multiset{key} == y - multiset{key}
    ensures x == y
  {
    assert x == (x - multiset{key}) + multiset{key};
    assert y == (y - multiset{key}) + multiset{key};
  }

  /** Permuting the ranks permutes the action ids read along them. */
  lemma {:induction false} ActionsAlongMultiset(a: seq<nat>, b: seq<nat>, stepLimit: seq<StepLimit>)
    requires SlotsIn(a, |stepLimit|) && SlotsIn(b, |stepLimit|)
    requires multiset(a) == multiset(b)
    ensures multiset(ActionsAlong(a, stepLimit)) == multiset(ActionsAlong(b, stepLimit))
    decreases |a|
  {
    assert |a| == |multiset(a)| == |multiset(b)| == |b|;
    if |a| > 0 {
      assert a[0] in multiset(b);
      var k :| 0 <= k < |b| && b[k] == a[0];
      var rest := b[..k] + b[k + 1..];
      ActionsAlongTail(a, stepLimit);
      ActionsAlongRemoveAt(b, k, stepLimit);
      assert multiset(a[1..]) == multiset(rest) by {
        MultisetRemoveAt(b, k);
        MultisetRemoveAt(a, 0);
        assert a[..0] + a[1..] == a[1..];
      }
      ActionsAlongMultiset(a[1..], rest, stepLimit);
      MultisetCancel(multiset(ActionsAlong(a, stepLimit)), multiset(ActionsAlong(b, stepLimit)), ActionOf(stepLimit, a[0]));
    }
  }

  lemma MultisetTail(x: seq<nat>)
    requires |x| > 0
    ensures multiset(x[1..]) == multiset(x) - multiset{x[0]}
  {
    assert x == [x[0]] + x[1..];
  }

  /** Two non-decreasing key sequences holding the same keys start with the same, least, key. */
  lemma NonDecreasingHeads(x: seq<nat>, y: seq<nat>)
    requires NonDecreasing(x) && NonDecreasing(y)
    requires multiset(x) == multiset(y) && |x| > 0 && |y| > 0
    ensures x[0] == y[0]
  {
    assert x[0] in multiset(y);
    assert y[0] in multiset(x);
    var j :| 0 <= j < |y| && y[j] == x[0];
    var i :| 0 <= i < |x| && x[i] == y[0];
    assert y[0] <= y[j] && x[0] <= x[i];
  }

  /** Two non-decreasing key sequences holding the same keys are equal. */
  lemma {:induction false} NonDecreasingUnique(x: seq<nat>, y: seq<nat>)
    requires NonDecreasing(x) && NonDecreasing(y)
    requires multiset(x) == multiset(y)
    ensures x == y
    decreases |x|
  {
    assert |x| == |multiset(x)| == |multiset(y)| == |y|;
    if |x| > 0 {
      NonDecreasingHeads(x, y);
      MultisetTail(x);
      MultisetTail(y);
      NonDecreasingUnique(x[1..], y[1..]);
      assert x == [x[0]] + x[1..];
      assert y == [y[0]] + y[1..];
    }
  }

  /**
   * Any two sorted orderings of the same ranks read the same action ids:
   * results of the sort differ at most in the order among equal ids.
   */
  lemma SortedActionsDetermined(a: seq<nat>, b: seq<nat>, stepLimit: seq<StepLimit>)
    requires SlotsIn(a, |stepLimit|) && SlotsIn(b, |stepLimit|)
    requires multiset(a) == multiset(b)
    requires IsSortedByAction(a, stepLimit) && IsSortedByAction(b, stepLimit)
    ensures ActionsAlong(a, stepLimit) == ActionsAlong(b, stepLimit)
  {
    SortedIffAllPairs(a, stepLimit);
    SortedIffAllPairs(b, stepLimit);
    ActionsAlongMultiset(a, b, stepLimit);
    NonDecreasingUnique(ActionsAlong(a, stepLimit), ActionsAlong(b, stepLimit));
  }

  lemma EightKeysRearranged(keys: seq<nat>)
    requires keys == [3, 1, 2, 1, 3, 2, 1, 2]
    ensures multiset(keys) == multiset([1, 1, 1, 2, 2, 2, 3, 3])
  {
  }

  lemma EightKeysSorted()
    ensures NonDecreasing([1, 1, 1, 2, 2, 2, 3, 3])
  {
  }

  /**
   * Sorting by action reads the ids along the ranks in their unique
   * non-decreasing arrangement.
   */
  lemma SortReadsArrangement(l: Lanes, expected: seq<nat>)
    requires WellFormed(l)
    requires NonDecreasing(expected)
    requires multiset(ActionsAlong(l.trackSlots, l.stepLimit)) == multiset(expected)
    ensures ActionsAlong(SortByAction(l).trackSlots, l.stepLimit) == expected
  {
    var sorted := SortByAction(l).trackSlots;
    ActionsAlongMultiset(sorted, l.trackSlots, l.stepLimit);
    SortedIffAllPairs(sorted, l.stepLimit);
    NonDecreasingUnique(ActionsAlong(sorted, l.stepLimit), expected);
  }

  /** The ids read along the identity mapping of the eight-slot scenario. */
  lemma EightSlotsKeys(l: Lanes)
    requires l.trackSlots == [0, 1, 2, 3, 4, 5, 6, 7]
    requires |l.status| == 8 && |l.stepLimit| == 8
    requires forall i :: 0 <= i < 8 ==> l.stepLimit[i].action == [3, 1, 2, 1, 3, 2, 1, 2][i]
    ensures WellFormed(l)
    ensures ActionsAlong(l.trackSlots, l.stepLimit) == [3, 1, 2, 1, 3, 2, 1, 2]
  {
  }

  /** Eight slots with step-limit actions 3,1,2,1,3,2,1,2 sort to read 1,1,1,2,2,2,3,3. */
  lemma EightSlotsSortByAction(l: Lanes)
    requires l.trackSlots == [0, 1, 2, 3, 4, 5, 6, 7]
    requires |l.status| == 8 && |l.stepLimit| == 8
    requires forall i :: 0 <= i < 8 ==> l.stepLimit[i].action == [3, 1, 2, 1, 3, 2, 1, 2][i]
    ensures WellFormed(l)
    ensures ActionsAlong(SortByAction(l).trackSlots, l.stepLimit) == [1, 1, 1, 2, 2, 2, 3, 3]
  {
    EightSlotsKeys(l);
    EightKeysRearranged(ActionsAlong(l.trackSlots, l.stepLimit));
    EightKeysSorted();
    SortReadsArrangement(l, [1, 1, 1, 2, 2, 2, 3, 3]);
  }

  /** Five of the eight scenario slots are alive. */
  lemma EightSlotsAliveCount(slots: seq<nat>, status: seq<TrackStatus>)
    requires slots == [0, 1, 2, 3, 4, 5, 6, 7]
    requires status == [Alive, Killed, Alive, Alive, Killed, Alive, Killed, Alive]
    ensures SlotsIn(slots, |status|)
    ensures CountAlive(slots, status) == 5
  {
    assert CountAlive(slots[7..], status) == 1;
    assert CountAlive(slots[6..], status) == 1;
    assert CountAlive(slots[5..], status) == 2;
    assert CountAlive(slots[4..], status) == 2;
    assert CountAlive(slots[3..], status) == 3;
    assert CountAlive(slots[2..], status) == 4;
    assert CountAlive(slots[1..], status) == 4;
  }

  /** Eight slots of which three are killed and five alive partition into five alive ranks, then three. */
  lemma EightSlotsPartition(l: Lanes)
    requires l.trackSlots == [0, 1, 2, 3, 4, 5, 6, 7]
    requires l.status == [Alive, Killed, Alive, Alive, Killed, Alive, Killed, Alive]
    requires |l.stepLimit| == 8
    ensures WellFormed(l)
    ensures |Partition(l).trackSlots| == 8
    ensures forall i :: 0 <= i < 5 ==> IsAlive(l.status, Partition(l).trackSlots[i])
    ensures forall i :: 5 <= i < 8 ==> !IsAlive(l.status, Partition(l).trackSlots[i])
  {
    EightSlotsAliveCount(l.trackSlots, l.status);
    var r := Partition(l).trackSlots;
    assert |r| == |multiset(r)| == |multiset(l.trackSlots)| == |l.trackSlots|;
  }

  //--------------------------------------------------------------------------
  // Dispatch
  //--------------------------------------------------------------------------

  /**
   * Reorders the rank mapping by the given policy. Whatever the prior state
   * (in particular after any number of steps changed statuses and step
   * limits), the result is a permutation of the ranks that satisfies the
   * policy's predicate, and the per-slot data is untouched.
   */
  function SortTracks(l: Lanes, order: TrackOrder): (r: Lanes)
    requires WellFormed(l)
    ensures WellFormed(r)
    ensures r.status == l.status && r.stepLimit == l.stepLimit
    ensures multiset(r.trackSlots) == multiset(l.trackSlots)
    ensures order == PartitionStatus ==> IsPartitioned(r.trackSlots, r.status)
    ensures order == SortStepLimitAction ==> IsSortedByAction(r.trackSlots, r.stepLimit)
  {
    match order
    case PartitionStatus => Partition(l)
    case SortStepLimitAction => SortByAction(l)
  }

  /**
   * For the reference implementations: reordering twice in a row without
   * an intervening step gives the result of reordering once. Ties may be
   * ordered differently by the source from one call to the next.
   */
  lemma SortTracksIdempotent(l: Lanes, order: TrackOrder)
    requires WellFormed(l)
    ensures SortTracks(SortTracks(l, order), order) == SortTracks(l, order)
  {
    match order
    case PartitionStatus => PartitionTwice(l);
    case SortStepLimitAction => SortTwice(l);
  }
}

=== FILE: wrappers.dfy ===
/** Failure-compatible result types shared by the model's modules. */
module Wrappers {

  /** A value that may be absent; stands for a null shared pointer. */
  datatype Option<+T> = None | Some(value: T)

  /** Either a successfully built value or the error that a validation raised. */
  datatype Result<+T, +E> = Success(value: T) | Failure(error: E)

  /** Pass/fail status of an operation that updates a value in place. */
  datatype Outcome<+E> = Pass | Fail(error: E)
}
